=== FILE: README.md ===
# WTemplateFormView reconciliation, modelled in Dafny

This project models the reconciliation logic of Wt's `WTemplateFormView`: a
form view whose template holds, for each field of a `WFormModel`, a widget in
the variable named after the field, a message widget in `<field>-info`, a label
string in `<field>-label` and a condition `if:<field>`.

- **Per-field registry** (`fields_`). It stores an optional custom "update view"
  function and an optional custom "update model" function per field.
- **`updateView`**. It folds the model's field list with `updateViewField`.
  - A hidden field has its condition switched off and its widget and info slots
    cleared.
  - A visible field has its condition switched on. It then gets a widget, either
    the bound one or one from `createFormWidget`; if neither exists, an error is
    logged and the field is skipped.
  - It then receives the model's validator, the model's value, an info widget
    (created at most once), the label, the validation indication and the
    disabled flag.
- **`updateModel`**. It folds the field list with `updateModelField`, which
  pulls each widget's value back into the model.
- **Value transfer in both directions**. A non-empty custom function takes
  precedence outright. Otherwise the rule depends on the widget kind:
  - a toggle button exchanges its checked state with a boolean value;
  - any other form widget exchanges its value text;
  - other widgets are not synchronised.

Everything is a value. Widgets are records (`Widgets`). The template is one map
from variable name to a widget or a string, plus a map of conditions
(`Templates`). The model is a record per field (`FormModels`). The form view
(`TemplateFormView`) combines the template, the registry, a counter that hands
out identities to the widgets it constructs, and an event log. The log records
custom functions run and widgets the factory could not supply.

Custom functions are opaque tagged values (`Callback`): running one shows up
only as a `RanUpdateView`/`RanUpdateModel` event. The theme's
`applyValidationStyle` shows up as the `styling` it leaves on the widget.
`createFormWidget`, which a concrete form overrides, is a parameter: a map from
field to the widget it constructs. The base class's factory is `DefaultFactory`,
the empty map.

The central reference definition is `FieldConsistent`. It states what the view
shows for a field once it agrees with the model. `UpdateViewField` establishes
it for its field. `FormViewLemmas.UpdateViewConsistent` establishes it for
every field after a full pass. `FormViewLemmas.UpdateViewIdempotent` shows that
a second pass with the same model changes no binding or condition and
constructs no widget; only the log grows, by the custom functions run and the
fields abandoned again. Both lemmas assume `SlotNamesApart` (see "Left out" below).

The folds `ViewPass` and `ModelPass` are the reference definitions of the passes.
The methods `UpdateView` and `UpdateModel` are the source's loops, proved equal
to them.

## Model

| member | source | states |
|---|---|---|
| TemplateFormView.SetFormWidget | src/Wt/WTemplateFormView.C:43-49 | the field's registry entry is replaced by one with no custom functions that records the widget; the widget is bound at the field's variable (a null widget clears it); other entries and other variables are untouched |
| TemplateFormView.SetFormWidgetWithFunctions | src/Wt/WTemplateFormView.C:53-63 | all three members of the field's entry are overwritten with the given widget and functions (an empty function being absent); the widget is bound; nothing else changes |
| TemplateFormView.CreateFormWidget | src/Wt/WTemplateFormView.C:80-84 | yields a widget exactly when the form's factory constructs one for the field, with the identity passed in (the view's `nextId`); the base class's factory yields none |
| TemplateFormView.CustomViewFunction | src/Wt/WTemplateFormView.C:104-125 | reports a custom view function exactly when the registry has an entry for the field whose update-view function is non-empty, and that function |
| TemplateFormView.CustomModelFunction | src/Wt/WTemplateFormView.C:223-244 | the same for the update-model function |
| TemplateFormView.ToggleState | src/Wt/WTemplateFormView.C:93-99 | a toggle button is checked exactly when the value is boolean true; an empty or false value unchecks it |
| TemplateFormView.UpdateFormViewValue | src/Wt/WTemplateFormView.C:86-102 | with a custom function: the widget is untouched and exactly that function runs; otherwise no event and the widget shows the value (toggle state or value text), nothing else of the widget changing |
| TemplateFormView.UpdateWidgetViewValue | src/Wt/WTemplateFormView.C:152-153 | a widget that is not a form widget is never changed; an event occurs exactly when a custom view function exists |
| TemplateFormView.UpdateFormModelValue | src/Wt/WTemplateFormView.C:209-221 | with a custom function the model is untouched and exactly that function runs; otherwise the field's value becomes the widget's value: a toggle's checked boolean, else its value text |
| TemplateFormView.UpdateWidgetModelValue | src/Wt/WTemplateFormView.C:205-206 | without a form widget the model is never changed; an event occurs exactly when a custom model function exists |
| TemplateFormView.InstallValidator | src/Wt/WTemplateFormView.C:148-150 | a non-null model validator ends up on the widget; with a null one the widget is unchanged; nothing but the validator changes |
| TemplateFormView.PushValue | src/Wt/WTemplateFormView.C:146-153 | a form widget ends with the model's validator (when non-null) and shows the value unless a custom function runs; other widgets are unchanged; kind and disabled flag are kept |
| TemplateFormView.IndicateValidation | src/Wt/WTemplateFormView.C:175-196 | the info text is the result's message; the info widget has the error class iff validated and not Valid, other classes untouched; the widget's validation style is all styles when validated and none otherwise |
| TemplateFormView.PresentField | src/Wt/WTemplateFormView.C:146-167 | a visible field with a widget ends Presented: disabled equals read-only, styled by the result, validator and value in place, info widget reporting the validation, label bound; the info widget is created only when none is bound; only the field's three variables change |
| TemplateFormView.UpdateViewField | src/Wt/WTemplateFormView.C:127-173 | the field ends consistent with the model; only its own variables and condition change; a bound widget is kept, never replaced; the registry is untouched; at most one event is appended |
| TemplateFormView.UpdateViewFieldTogglesFrom | src/Wt/WTemplateFormView.C:134-144 | the view pass of a field binds no toggle button other than the factory's widget for that field |
| TemplateFormView.ViewPass | src/Wt/WTemplateFormView.C:256-264 | the fold keeps the registry, never lowers the widget counter and only appends to the log |
| TemplateFormView.UpdateView | src/Wt/WTemplateFormView.C:256-264 | the loop over the model's fields computes the fold `ViewPass` over them |
| TemplateFormView.UpdateModelField | src/Wt/WTemplateFormView.C:198-207 | the template and registry are untouched; with a form widget and no custom function the field takes the widget's value; otherwise the model is unchanged; other fields never change |
| TemplateFormView.ModelPass | src/Wt/WTemplateFormView.C:246-254 | the fold changes only the model and the log; the model keeps its field list and key set |
| TemplateFormView.UpdateModel | src/Wt/WTemplateFormView.C:246-254 | the loop over the model's fields computes the fold `ModelPass` over them |
| FormViewLemmas.HiddenFieldCleared | src/Wt/WTemplateFormView.C:168-172 | a hidden field ends with its condition false, widget and info slots empty, and its label slot, all other bindings, registry, counter and log untouched |
| FormViewLemmas.MissingWidgetAbandonsField | src/Wt/WTemplateFormView.C:132-142 | a visible field with no widget and no factory widget only gets its condition set true and a logged error |
| FormViewLemmas.DefaultFactoryNeedsBoundWidget | src/Wt/WTemplateFormView.C:134-141 | with the base class's factory a visible field without a bound widget is always abandoned with an error |
| FormViewLemmas.FactoryWidgetBound | src/Wt/WTemplateFormView.C:135-144 | a visible field with an empty slot gets the factory's widget, with the next identity |
| FormViewLemmas.InfoWidgetCreatedOnce | src/Wt/WTemplateFormView.C:155-159 | the info widget is reused when `-info` holds a text widget, with no identity spent, and created once otherwise |
| FormViewLemmas.RegisteredViewFunctionRuns | src/Wt/WTemplateFormView.C:108-115 | after registering a custom view function, the view pass runs exactly that function once and leaves the widget's checked state and text alone, whatever its kind |
| FormViewLemmas.RegisteredModelFunctionRuns | src/Wt/WTemplateFormView.C:227-234 | after registering a custom model function, the model pass runs exactly that function once, and default dispatch writes nothing to that field; the custom function's own effect is not modelled |
| FormViewLemmas.PlainRegistrationUsesDefaults | src/Wt/WTemplateFormView.C:43-49 | a form widget registered without functions gets default dispatch both ways: the view pass makes it show the value with no event, and the model pass stores its value |
| FormViewLemmas.NonFormWidgetNotSynced | src/Wt/WTemplateFormView.C:146-153 | with no custom functions, a widget that is not a form widget keeps its checked state, text and validator, and the model pass leaves the model unchanged |
| FormViewLemmas.ViewThenModelNormalizes | src/Wt/WTemplateFormView.C:216-220 | pushing a value into a form widget and reading it back stores the boolean "is true" for a toggle and the value text otherwise |
| FormViewLemmas.ViewThenModelRestores | src/Wt/WTemplateFormView.C:209-221 | a boolean on a toggle, or a text on another form widget, with default formatting survives the push-and-read-back unchanged |
| FormViewLemmas.ModelThenViewKeepsWidget | src/Wt/WTemplateFormView.C:86-102 | reading a form widget into the model and pushing the result back leaves the widget as it was; its value state here is only the checked flag and the text |
| FormViewLemmas.ModelThenViewFieldInDomain | src/Wt/WTemplateFormView.C:93-99 | after reading a visible field's form widget into the model, the view pass can read the value back exactly when the widget is not a text input whose factory builds a toggle button |
| FormViewLemmas.ModelThenViewFieldKeepsValue | src/Wt/WTemplateFormView.C:198-207 | a model pass followed by a view pass of a visible field within that domain leaves its form widget's checked state and text as they were |
| FormViewLemmas.IndicateValidationIdempotent | src/Wt/WTemplateFormView.C:181-195 | indicating the same validation twice changes nothing the second time |
| FormViewLemmas.IndicateValidationStable | src/Wt/WTemplateFormView.C:183-195 | an info widget already reporting the validation, next to a widget already styled by it, is left as it is |
| FormViewLemmas.UpdateViewFieldKeepsOther | src/Wt/WTemplateFormView.C:130-172 | one field's view pass keeps another field, whose slot names are apart, consistent |
| FormViewLemmas.UpdateViewFieldStable | src/Wt/WTemplateFormView.C:132-167 | the view pass of a consistent field changes no binding or condition and constructs no widget |
| FormViewLemmas.ViewPassConsistent | src/Wt/WTemplateFormView.C:260-263 | after a view pass over fields with apart slot names, every one of them is consistent, so a failed field does not stop the later ones |
| FormViewLemmas.UpdateViewConsistent | src/Wt/WTemplateFormView.C:256-264 | when no field is named like another field's `-info` or `-label` variable (`SlotNamesApart`), after updateView every field of the model is consistent with it |
| FormViewLemmas.UpdateViewIdempotent | src/Wt/WTemplateFormView.C:256-264 | a second updateView with an unchanged model leaves every binding and condition as before and constructs no widget |
| FormViewLemmas.ModelPassUntouched | src/Wt/WTemplateFormView.C:246-254 | a model pass leaves the data of every field outside its list unchanged |
| FormViewLemmas.ModelPassReadsWidgets | src/Wt/WTemplateFormView.C:250-253 | after a model pass over distinct fields, each field with a form widget and no custom function holds that widget's value; for every other field, default dispatch writes nothing; the custom function's own effect is not modelled |
| FormViewLemmas.UpdateModelReadsWidgets | src/Wt/WTemplateFormView.C:246-254 | the same for updateModel over the model's fields |

## Left out

- `init` (lines 36-41) registers the `id`, `tr` and `block` template functions. That belongs to the template engine and is not modelled.
- Rendering, HTML/DOM and client-side events are not modelled. `WTemplate`, `WFormModel`, `WWidget` and `WTheme` are not part of this model; only the operations the form view calls on them are modelled, as plain data.
- The theme is reached through the global `WApplication::instance()`. This is modelled only as the validation style recorded on the widget.
- `LOG_ERROR` is modelled only as a `CreateFormWidgetFailed` event.
- The `WT_TARGET_JAVA` variants (lines 65-78, 116-120, 235-239) are a separate build and are left out.
- Ownership is left out: `unique_ptr` transfer and the raw `formWidget` pointer. The registry keeps only the widget's identity, and nothing in these operations reads it.
- What a custom update function does is arbitrary code and is not modelled. Only the fact that it ran is recorded. In particular, the idempotence lemma speaks of bindings and conditions, not of what custom functions do.
- `info->setText` is called twice with the same message (lines 164 and 181). It is modelled once.
- `setValue` is taken to refresh `valueText` with the model's default formatting: empty, `true`/`false`, or the text.
- TemplateFormView.UpdateViewField: requires `ToggleHoldsBoolean`. A visible field whose value is text, and which has no custom view function, must be neither bound to nor created as a toggle button. The source reads such a value with `any_cast<bool>` (line 96), which throws; the exception is not modelled. Hidden fields are unrestricted, since the hidden branch never reads the value. The requirement also covers a factory toggle that would not be used because a widget is already bound, so it is slightly stronger than what the source needs. Narrowing it to an unbound slot would not survive a pass in which field `a` clears the `a-info` slot of a field named `a-info`.
- TemplateFormView.ViewPass: requires `TogglesHoldBooleans`, the `ToggleHoldsBoolean` condition for every field, taken on the template before the pass rather than when each field is reached. With colliding slot names, it therefore also refuses a toggle that another field's pass replaces or clears before it is read. For example, with fields `a` and `a-info`, field `a`'s pass binds its info `WText` over a toggle at `a-info` (lines 155-158), or clears it when `a` is hidden (lines 170-171). A toggle at `a-label` replaced by `a`'s label string (line 161) is refused the same way.
- TemplateFormView.UpdateView: requires `TogglesHoldBooleans`, with the same pre-pass reading and the same over-refusal as `ViewPass`.
- FormViewLemmas.UpdateViewConsistent: assumes `SlotNamesApart`, for the reason given on the next line.
- FormViewLemmas.UpdateViewIdempotent: assumes no field is named like another field's `-info` or `-label` variable (`SlotNamesApart`). Without that, the source's passes interfere. For example, a hidden field `a-info` clears the info widget of field `a`, so every pass constructs a new one.
- A visible toggle field holding a non-boolean value makes `any_cast<bool>` (line 96) throw. The model excludes such inputs, as described above.
- A form widget's `valueText()` is taken to return exactly what `setValueText` last stored, as a line edit does. A widget that parses or restricts its text, such as a combo box given text that is not one of its items, is not modelled. FormViewLemmas.ViewThenModelNormalizes and FormViewLemmas.ViewThenModelRestores depend on this assumption.
- FormViewLemmas.ModelThenViewKeepsWidget: a form widget's whole value state is taken to be its two-state checked flag and its text, so `setValueText(valueText())` and `setChecked(isChecked())` change nothing. Two program widgets fall outside this. A tri-state check box left partially checked reads as `false` (line 218) and comes back unchecked (line 97). A combo box whose current item repeats an earlier item's text comes back with the earlier item selected (lines 220 and 101).

=== FILE: form_models.dfy ===
/** The form model as the form view sees it: an ordered list of distinct
    fields and, per field, its value, formatted value text, flags, validator,
    validation result and label. */
module FormModels {
  import opened Wrappers
  import opened Widgets

  type Field = string

  /** A field value: empty, a boolean (what a toggle button writes) or text
      (what any other form widget writes). */
  datatype Value = NoValue | BoolValue(b: bool) | TextValue(s: string)

  datatype FieldState = FieldState(
    value: Value,
    valueText: string,
    visible: bool,
    readOnly: bool,
    validated: bool,
    validator: Option<ValidatorId>,
    result: ValidationResult,
    labelText: string)

  datatype Model = Model(fields: seq<Field>, data: map<Field, FieldState>)
  {
    /** fields() lists the keys of the model's field map: each key once,
        and every key. */
    predicate Valid() {
      && (forall i :: 0 <= i < |fields| ==> fields[i] in data)
      && (forall i, j :: 0 <= i < j < |fields| ==> fields[i] != fields[j])
      && (forall k :: k in data ==> k in fields)
    }

    /** setValue: stores `v` and refreshes the formatted text. */
    function SetValue(f: Field, v: Value): (r: Model)
      requires f in data
      ensures r.fields == fields && r.data.Keys == data.Keys
      ensures r.data[f].value == v && r.data[f].valueText == FormatValue(v)
      ensures r.data[f].(value := data[f].value, valueText := data[f].valueText) == data[f]
      ensures r.data - {f} == data - {f}
    {
      this.(data := data[f := data[f].(value := v, valueText := FormatValue(v))])
    }
  }

  /** The model's default text rendering of a value (Wt::asString). */
  function FormatValue(v: Value): (s: string)
    ensures v.TextValue? ==> s == v.s
    ensures v.NoValue? ==> s == []
  {
    match v
    case NoValue => []
    case BoolValue(b) => if b then "true" else "false"
    case TextValue(t) => t
  }
}

=== FILE: form_view_lemmas.dfy ===
/** Properties of the form view: what one field's view pass does in each of
    its cases, which transfer rule wins, the round trips between the two
    directions, and that a full view pass leaves every field consistent with
    the model and is idempotent. */
module FormViewLemmas {
  import opened Wrappers
  import opened Widgets
  import opened Templates
  import opened FormModels
  import opened TemplateFormView

  // ---------------------------------------------------------------------
  // One field, case by case

  /** A hidden field ends with its condition off and its widget and info
      slots cleared; its label slot, every other binding, the registry, the
      widget counter and the log are untouched. */
  lemma HiddenFieldCleared(v: FormView, m: Model, fac: Factory, f: Field)
    requires f in m.data && !m.data[f].visible
    ensures var r := UpdateViewField(v, m, fac, f);
            && r.tmpl.ConditionIs(ConditionName(f), false)
            && r.tmpl.ResolveWidget(f).None? && r.tmpl.ResolveWidget(InfoName(f)).None?
            && r.tmpl.slots - {f, InfoName(f)} == v.tmpl.slots - {f, InfoName(f)}
            && r.fields == v.fields && r.nextId == v.nextId && r.log == v.log
  {
  }

  /** A visible field with no bound widget whose factory constructs nothing
      gets its condition on and a logged error, and nothing else: no widget,
      info, label, value or disabled change. */
  lemma MissingWidgetAbandonsField(v: FormView, m: Model, fac: Factory, f: Field)
    requires f in m.data && m.data[f].visible
    requires v.tmpl.ResolveWidget(f).None? && f !in fac
    ensures var r := UpdateViewField(v, m, fac, f);
            && r.tmpl == v.tmpl.SetCondition(ConditionName(f), true)
            && r.tmpl.slots == v.tmpl.slots
            && r.log == v.log + [CreateFormWidgetFailed(f)]
            && r.fields == v.fields && r.nextId == v.nextId
  {
  }

  /** The default factory constructs nothing, so with it a visible field
      needs a widget bound beforehand. */
  lemma DefaultFactoryNeedsBoundWidget(v: FormView, m: Model, f: Field)
    requires f in m.data && m.data[f].visible
    requires v.tmpl.ResolveWidget(f).None?
    ensures UpdateViewField(v, m, DefaultFactory, f).log == v.log + [CreateFormWidgetFailed(f)]
  {
  }

  /** A visible field whose slot is empty gets the factory's widget, with the
      identity the view hands out next. */
  lemma FactoryWidgetBound(v: FormView, m: Model, fac: Factory, f: Field)
    requires f in m.data && m.data[f].visible
    requires v.tmpl.ResolveWidget(f).None? && f in fac
    requires ToggleHoldsBoolean(v.tmpl, v.fields, m, fac, f)
    ensures var r := UpdateViewField(v, m, fac, f);
            && r.tmpl.ResolveWidget(f).Some?
            && r.tmpl.ResolveWidget(f).value.id == v.nextId
            && r.tmpl.ResolveWidget(f).value.kind == fac[f].kind
  {
  }

  /** A visible field with a widget: the info widget is created only when
      `f-info` holds no WText, and is reused otherwise. */
  lemma InfoWidgetCreatedOnce(v: FormView, m: Model, fac: Factory, f: Field)
    requires f in m.data && m.data[f].visible
    requires v.tmpl.ResolveWidget(f).Some?
    requires ToggleHoldsBoolean(v.tmpl, v.fields, m, fac, f)
    ensures var r := UpdateViewField(v, m, fac, f);
            && r.tmpl.ResolveText(InfoName(f)).Some?
            && (v.tmpl.ResolveText(InfoName(f)).Some? ==>
                  r.nextId == v.nextId
                  && r.tmpl.ResolveText(InfoName(f)).value.id == v.tmpl.ResolveText(InfoName(f)).value.id)
            && (v.tmpl.ResolveText(InfoName(f)).None? ==>
                  r.nextId == v.nextId + 1 && r.tmpl.ResolveText(InfoName(f)).value.id == v.nextId)
  {
  }

  // ---------------------------------------------------------------------
  // Which transfer rule wins

  /** A field registered with a custom view function: exactly that function
      runs, once, and default dispatch is skipped, so the widget keeps its
      checked state and text whatever its kind. */
  lemma RegisteredViewFunctionRuns(v: FormView, m: Model, fac: Factory, f: Field, w: Widget,
                                   toView: Callback, toModel: Option<Callback>)
    requires f in m.data && m.data[f].visible
    ensures var v1 := SetFormWidgetWithFunctions(v, f, Some(w), Some(toView), toModel);
            var r := UpdateViewField(v1, m, fac, f);
            && r.log == v.log + [RanUpdateView(f, toView)]
            && r.tmpl.ResolveWidget(f).Some?
            && r.tmpl.ResolveWidget(f).value.checked == w.checked
            && r.tmpl.ResolveWidget(f).value.text == w.text
  {
  }

  /** A field registered with a custom model function: exactly that function
      runs and the model is left to it, whatever widget is bound. */
  lemma RegisteredModelFunctionRuns(v: FormView, m: Model, f: Field, w: Option<Widget>,
                                    toView: Option<Callback>, toModel: Callback)
    requires f in m.data
    ensures var v1 := SetFormWidgetWithFunctions(v, f, w, toView, Some(toModel));
            var r := UpdateModelField(v1, m, f);
            r.1 == m && r.0.log == v.log + [RanUpdateModel(f, toModel)]
  {
  }

  /** A field registered without custom functions to a form widget gets
      default dispatch in both directions: the view pass makes the widget
      show the model's value, and the model pass stores the widget's value. */
  lemma PlainRegistrationUsesDefaults(v: FormView, m: Model, fac: Factory, f: Field, w: Widget)
    requires f in m.data && m.data[f].visible && IsFormWidget(w)
    requires w.kind.ToggleButton? ==> !m.data[f].value.TextValue?
    requires f in fac ==> !fac[f].kind.ToggleButton? || !m.data[f].value.TextValue?
    ensures var v1 := SetFormWidget(v, f, Some(w));
            ToggleHoldsBoolean(v1.tmpl, v1.fields, m, fac, f)
    ensures var v1 := SetFormWidget(v, f, Some(w));
            var r := UpdateViewField(v1, m, fac, f);
            && r.tmpl.ResolveWidget(f).Some?
            && ShowsValue(r.tmpl.ResolveWidget(f).value, m.data[f])
            && r.log == v.log
    ensures var v1 := SetFormWidget(v, f, Some(w));
            UpdateModelField(v1, m, f).1.data[f].value == WidgetValue(w)
  {
  }

  /** A widget that is not a form widget is changed by no default rule in
      either direction. */
  lemma NonFormWidgetNotSynced(v: FormView, m: Model, fac: Factory, f: Field)
    requires f in m.data && m.data[f].visible
    requires v.tmpl.ResolveWidget(f).Some? && !IsFormWidget(v.tmpl.ResolveWidget(f).value)
    requires CustomViewFunction(v.fields, f).None? && CustomModelFunction(v.fields, f).None?
    requires ToggleHoldsBoolean(v.tmpl, v.fields, m, fac, f)
    ensures var w := v.tmpl.ResolveWidget(f).value;
            var r := UpdateViewField(v, m, fac, f);
            && r.tmpl.ResolveWidget(f).Some?
            && r.tmpl.ResolveWidget(f).value.checked == w.checked
            && r.tmpl.ResolveWidget(f).value.text == w.text
            && r.tmpl.ResolveWidget(f).value.validator == w.validator
            && r.log == v.log
    ensures UpdateModelField(v, m, f).1 == m
  {
  }

  // ---------------------------------------------------------------------
  // Default dispatch and the round trips between the directions

  /** Pushing a value into a form widget and reading it back stores the
      value in normal form: a toggle yields the boolean "is true", any other
      form widget yields the value text. */
  lemma ViewThenModelNormalizes(reg: Registry, m: Model, f: Field, w: Widget)
    requires f in m.data && IsFormWidget(w)
    requires CustomViewFunction(reg, f).None? && CustomModelFunction(reg, f).None?
    requires CanPushValue(reg, f, m.data[f], w)
    ensures var shown := UpdateFormViewValue(reg, f, m.data[f], w).0;
            var back := UpdateFormModelValue(reg, m, f, shown).0;
            back.data[f].value == (if w.kind.ToggleButton? then BoolValue(m.data[f].value == BoolValue(true))
                                   else TextValue(m.data[f].valueText))
  {
  }

  /** A value already in normal form for its widget, with the model's own
      formatting, survives a push into the widget and back unchanged. */
  lemma ViewThenModelRestores(reg: Registry, m: Model, f: Field, w: Widget)
    requires f in m.data && IsFormWidget(w)
    requires CustomViewFunction(reg, f).None? && CustomModelFunction(reg, f).None?
    requires w.kind.ToggleButton? ==> m.data[f].value.BoolValue?
    requires w.kind.FormInput? ==> m.data[f].value.TextValue?
    requires m.data[f].valueText == FormatValue(m.data[f].value)
    ensures var shown := UpdateFormViewValue(reg, f, m.data[f], w).0;
            UpdateFormModelValue(reg, m, f, shown).0 == m
  {
  }

  /** Reading a form widget into the model and pushing the result back
      leaves the widget as it was. */
  lemma ModelThenViewKeepsWidget(reg: Registry, m: Model, f: Field, w: Widget)
    requires f in m.data && IsFormWidget(w)
    requires CustomViewFunction(reg, f).None? && CustomModelFunction(reg, f).None?
    ensures var m1 := UpdateFormModelValue(reg, m, f, w).0;
            CanPushValue(reg, f, m1.data[f], w) && UpdateFormViewValue(reg, f, m1.data[f], w).0 == w
  {
  }

  /** When a model pass followed by a view pass stays inside the view pass's
      domain: the field read back from a form widget holds a boolean or its
      text, and only a line-edit-like widget whose factory would build a
      toggle button makes that text meet a toggle. */
  lemma ModelThenViewFieldInDomain(v: FormView, m: Model, fac: Factory, f: Field)
    requires f in m.data && m.data[f].visible && FormWidgetAt(v.tmpl, f)
    requires CustomViewFunction(v.fields, f).None? && CustomModelFunction(v.fields, f).None?
    ensures var p := UpdateModelField(v, m, f);
            ToggleHoldsBoolean(p.0.tmpl, p.0.fields, p.1, fac, f)
            <==> !(v.tmpl.ResolveWidget(f).value.kind.FormInput? && f in fac && fac[f].kind.ToggleButton?)
  {
  }

  /** The same round trip through whole field passes: pulling a visible
      field's form widget into the model and then running its view pass
      leaves the widget's checked state and text as they were. */
  lemma ModelThenViewFieldKeepsValue(v: FormView, m: Model, fac: Factory, f: Field)
    requires f in m.data && m.data[f].visible && FormWidgetAt(v.tmpl, f)
    requires CustomViewFunction(v.fields, f).None? && CustomModelFunction(v.fields, f).None?
    requires var p := UpdateModelField(v, m, f);
             ToggleHoldsBoolean(p.0.tmpl, p.0.fields, p.1, fac, f)
    ensures var p := UpdateModelField(v, m, f);
            var r := UpdateViewField(p.0, p.1, fac, f);
            var w := v.tmpl.ResolveWidget(f).value;
            && r.tmpl.ResolveWidget(f).Some?
            && r.tmpl.ResolveWidget(f).value.checked == w.checked
            && r.tmpl.ResolveWidget(f).value.text == w.text
  {
  }

  // ---------------------------------------------------------------------
  // Validation indication

  /** Indicating the same validation twice changes nothing the second time. */
  lemma {:induction false} IndicateValidationIdempotent(validated: bool, info: Widget, edit: Widget,
                                                        result: ValidationResult)
    ensures var once := IndicateValidation(validated, info, edit, result);
            IndicateValidation(validated, once.0, once.1, result) == once
  {
  }

  /** An info widget already reporting the validation, next to a widget
      already styled by it, is left as it is. */
  lemma IndicateValidationStable(validated: bool, info: Widget, edit: Widget, result: ValidationResult)
    requires ReportsValidation(info, validated, result)
    requires edit.styling == Styled(result, StyleFor(validated))
    ensures IndicateValidation(validated, info, edit, result) == (info, edit)
  {
    var r := IndicateValidation(validated, info, edit, result);
    assert r.0.styleClasses == info.styleClasses;
  }

  // ---------------------------------------------------------------------
  // Slot names of different fields

  /** No field is named like another field's info or label slot. */
  predicate NamesApart(f: Field, g: Field) {
    && f != g
    && f != InfoName(g) && f != LabelName(g)
    && g != InfoName(f) && g != LabelName(f)
  }

  /** The fields' slot names do not collide. */
  predicate SlotNamesApart(fs: seq<Field>) {
    forall i, j :: 0 <= i < |fs| && 0 <= j < |fs| && i != j ==> NamesApart(fs[i], fs[j])
  }

  lemma {:induction false} SuffixCancels(a: string, b: string, s: string)
    requires a + s == b + s
    ensures a == b
  {
    assert |a| == |b|;
    assert a == (a + s)[..|a|];
    assert b == (b + s)[..|b|];
  }

  lemma {:induction false} PrefixCancels(p: string, a: string, b: string)
    requires p + a == p + b
    ensures a == b
  {
    assert a == (p + a)[|p|..];
    assert b == (p + b)[|p|..];
  }

  /** Two fields whose names are apart write disjoint slots and conditions. */
  lemma NamesApartDisjoint(f: Field, g: Field)
    requires NamesApart(f, g)
    ensures SlotsOf(f) !! SlotsOf(g)
    ensures ConditionName(f) != ConditionName(g)
  {
    if InfoName(f) == InfoName(g) { SuffixCancels(f, g, "-info"); }
    if LabelName(f) == LabelName(g) { SuffixCancels(f, g, "-label"); }
    if ConditionName(f) == ConditionName(g) { PrefixCancels("if:", f, g); }
    InfoIsNoLabel(f, g);
    InfoIsNoLabel(g, f);
  }

  /** An info slot name ends in 'o' and a label slot name in 'l'. */
  lemma InfoIsNoLabel(f: Field, g: Field)
    ensures InfoName(f) != LabelName(g)
  {
    var info, lab := InfoName(f), LabelName(g);
    assert info[|info| - 1] == 'o';
    assert lab[|lab| - 1] == 'l';
  }

  // ---------------------------------------------------------------------
  // A full view pass makes every field consistent

  /** FieldConsistent reads only the field's own slots and condition. */
  lemma FieldConsistentFrame(t: Template, t': Template, reg: Registry, m: Model, fac: Factory, f: Field)
    requires f in m.data
    requires FieldConsistent(t, reg, m, fac, f)
    requires forall s :: s in SlotsOf(f) ==>
               (s in t.slots <==> s in t'.slots) && (s in t.slots ==> t.slots[s] == t'.slots[s])
    requires ConditionName(f) in t.conditions <==> ConditionName(f) in t'.conditions
    requires ConditionName(f) in t.conditions ==> t.conditions[ConditionName(f)] == t'.conditions[ConditionName(f)]
    ensures FieldConsistent(t', reg, m, fac, f)
  {
  }

  /** The view pass of one field keeps another field, whose names are apart,
      consistent. */
  lemma UpdateViewFieldKeepsOther(v: FormView, m: Model, fac: Factory, g: Field, f: Field)
    requires g in m.data && f in m.data && NamesApart(f, g)
    requires ToggleHoldsBoolean(v.tmpl, v.fields, m, fac, g)
    requires FieldConsistent(v.tmpl, v.fields, m, fac, f)
    ensures FieldConsistent(UpdateViewField(v, m, fac, g).tmpl, v.fields, m, fac, f)
  {
    var r := UpdateViewField(v, m, fac, g);
    NamesApartDisjoint(f, g);
    forall s | s in SlotsOf(f)
      ensures (s in v.tmpl.slots <==> s in r.tmpl.slots)
      ensures s in v.tmpl.slots ==> v.tmpl.slots[s] == r.tmpl.slots[s]
    {
      assert s !in SlotsOf(g);
      assert s in v.tmpl.slots - SlotsOf(g) <==> s in v.tmpl.slots;
      assert s in r.tmpl.slots - SlotsOf(g) <==> s in r.tmpl.slots;
      if s in v.tmpl.slots {
        assert (v.tmpl.slots - SlotsOf(g))[s] == (r.tmpl.slots - SlotsOf(g))[s];
      }
    }
    var c := ConditionName(f);
    assert c !in {ConditionName(g)};
    assert c in v.tmpl.conditions - {ConditionName(g)} <==> c in v.tmpl.conditions;
    assert c in r.tmpl.conditions - {ConditionName(g)} <==> c in r.tmpl.conditions;
    if c in v.tmpl.conditions {
      assert (v.tmpl.conditions - {ConditionName(g)})[c] == (r.tmpl.conditions - {ConditionName(g)})[c];
    }
    FieldConsistentFrame(v.tmpl, r.tmpl, v.fields, m, fac, f);
  }

  /** A view pass over fields whose names are all apart from `f` keeps `f`
      consistent. */
  lemma {:induction false} ViewPassKeepsOther(v: FormView, m: Model, fac: Factory, fs: seq<Field>, f: Field)
    requires FieldsKnown(m, fs) && f in m.data
    requires TogglesHoldBooleans(v.tmpl, v.fields, m, fac)
    requires forall i :: 0 <= i < |fs| ==> NamesApart(f, fs[i])
    requires FieldConsistent(v.tmpl, v.fields, m, fac, f)
    ensures FieldConsistent(ViewPass(v, m, fac, fs).tmpl, v.fields, m, fac, f)
    decreases |fs|
  {
    if fs != [] {
      UpdateViewFieldKeepsOther(v, m, fac, fs[0], f);
      UpdateViewFieldKeepsBooleans(v, m, fac, fs[0]);
      ViewPassKeepsOther(UpdateViewField(v, m, fac, fs[0]), m, fac, fs[1..], f);
    }
  }

  /** After a view pass over fields with apart names, every one of them is
      consistent with the model. */
  lemma {:induction false} ViewPassConsistent(v: FormView, m: Model, fac: Factory, fs: seq<Field>)
    requires FieldsKnown(m, fs) && SlotNamesApart(fs)
    requires TogglesHoldBooleans(v.tmpl, v.fields, m, fac)
    ensures forall i :: 0 <= i < |fs| ==> FieldConsistent(ViewPass(v, m, fac, fs).tmpl, v.fields, m, fac, fs[i])
    decreases |fs|
  {
    if fs != [] {
      var v1 := UpdateViewField(v, m, fac, fs[0]);
      var rest := fs[1..];
      UpdateViewFieldKeepsBooleans(v, m, fac, fs[0]);
      assert SlotNamesApart(rest) by {
        forall i, j | 0 <= i < |rest| && 0 <= j < |rest| && i != j ensures NamesApart(rest[i], rest[j]) {
          assert rest[i] == fs[i + 1] && rest[j] == fs[j + 1];
        }
      }
      ViewPassConsistent(v1, m, fac, rest);
      forall i | 0 <= i < |rest| ensures NamesApart(fs[0], rest[i]) {
        assert rest[i] == fs[i + 1];
      }
      ViewPassKeepsOther(v1, m, fac, rest, fs[0]);
      forall i | 0 < i < |fs|
        ensures FieldConsistent(ViewPass(v, m, fac, fs).tmpl, v.fields, m, fac, fs[i])
      {
        assert fs[1..][i - 1] == fs[i];
      }
    }
  }

  /** updateView leaves every field of the model consistent with it. */
  lemma UpdateViewConsistent(v: FormView, m: Model, fac: Factory)
    requires m.Valid() && SlotNamesApart(m.fields)
    requires TogglesHoldBooleans(v.tmpl, v.fields, m, fac)
    ensures FieldsKnown(m, m.fields)
    ensures var r := ViewPass(v, m, fac, m.fields);
            forall i :: 0 <= i < |m.fields| ==> FieldConsistent(r.tmpl, r.fields, m, fac, m.fields[i])
  {
    ViewPassConsistent(v, m, fac, m.fields);
  }

  // ---------------------------------------------------------------------
  // Idempotence

  /** Binding a field's widgets and label as they already are changes nothing. */
  lemma BindFieldStable(t: Template, f: Field, edit: Widget, info: Widget, labelText: string)
    requires info.kind.TextView?
    requires t.ResolveWidget(f) == Some(edit)
    requires t.ResolveText(InfoName(f)) == Some(info)
    requires LabelName(f) in t.slots && t.slots[LabelName(f)] == StringBinding(labelText)
    ensures BindField(t, f, edit, info, labelText) == t
  {
  }

  /** The view pass of a consistent field changes no binding, no condition
      and constructs no widget. */
  lemma UpdateViewFieldStable(v: FormView, m: Model, fac: Factory, f: Field)
    requires f in m.data
    requires ToggleHoldsBoolean(v.tmpl, v.fields, m, fac, f)
    requires FieldConsistent(v.tmpl, v.fields, m, fac, f)
    ensures var r := UpdateViewField(v, m, fac, f);
            r.tmpl == v.tmpl && r.nextId == v.nextId && r.fields == v.fields
  {
    var d := m.data[f];
    var t := v.tmpl;
    SlotNamesDistinct(f);
    if !d.visible {
      var t1 := t.SetCondition(ConditionName(f), false);
      assert t1.conditions == t.conditions;
      assert ClearField(t1, f).slots == t.slots;
    } else {
      var t1 := t.SetCondition(ConditionName(f), true);
      assert t1.conditions == t.conditions;
      assert t1 == t;
      if t.ResolveWidget(f).Some? {
        var w := t.ResolveWidget(f).value;
        var info := t.ResolveText(InfoName(f)).value;
        var pushed := PushValue(v.fields, f, d, w);
        if IsFormWidget(w) {
          var w1 := InstallValidator(w, d.validator);
          assert w1 == w;
          if CustomViewFunction(v.fields, f).None? {
            assert pushed.0 == w;
          }
        }
        assert pushed.0 == w;
        IndicateValidationStable(d.validated, info, w, d.result);
        BindFieldStable(t, f, w, info, d.labelText);
      }
    }
  }

  /** A view pass over fields that are all consistent changes no binding,
      no condition and constructs no widget. */
  lemma {:induction false} ViewPassStable(v: FormView, m: Model, fac: Factory, fs: seq<Field>)
    requires FieldsKnown(m, fs)
    requires TogglesHoldBooleans(v.tmpl, v.fields, m, fac)
    requires forall i :: 0 <= i < |fs| ==> FieldConsistent(v.tmpl, v.fields, m, fac, fs[i])
    ensures var r := ViewPass(v, m, fac, fs);
            r.tmpl == v.tmpl && r.nextId == v.nextId && r.fields == v.fields
    decreases |fs|
  {
    if fs != [] {
      var v1 := UpdateViewField(v, m, fac, fs[0]);
      UpdateViewFieldStable(v, m, fac, fs[0]);
      UpdateViewFieldKeepsBooleans(v, m, fac, fs[0]);
      forall i | 0 <= i < |fs[1..]|
        ensures FieldConsistent(v1.tmpl, v1.fields, m, fac, fs[1..][i])
      {
        assert fs[1..][i] == fs[i + 1];
      }
      ViewPassStable(v1, m, fac, fs[1..]);
    }
  }

  /** A second updateView with an unchanged model leaves every binding and
      condition as the first one left them and constructs no widget. */
  lemma UpdateViewIdempotent(v: FormView, m: Model, fac: Factory)
    requires m.Valid() && SlotNamesApart(m.fields)
    requires TogglesHoldBooleans(v.tmpl, v.fields, m, fac)
    ensures FieldsKnown(m, m.fields)
    ensures var once := ViewPass(v, m, fac, m.fields);
            var twice := ViewPass(once, m, fac, m.fields);
            twice.tmpl == once.tmpl && twice.nextId == once.nextId && twice.fields == once.fields
  {
    UpdateViewConsistent(v, m, fac);
    var once := ViewPass(v, m, fac, m.fields);
    ViewPassStable(once, m, fac, m.fields);
  }

  // ---------------------------------------------------------------------
  // The model pass

  /** A model pass leaves the data of fields outside its list unchanged. */
  lemma {:induction false} ModelPassUntouched(v: FormView, m: Model, fs: seq<Field>, g: Field)
    requires FieldsKnown(m, fs) && g in m.data
    requires forall i :: 0 <= i < |fs| ==> fs[i] != g
    ensures ModelPass(v, m, fs).1.data[g] == m.data[g]
    decreases |fs|
  {
    if fs != [] {
      var step := UpdateModelField(v, m, fs[0]);
      var rest := fs[1..];
      assert g in step.1.data - {fs[0]};
      assert FieldsKnown(step.1, rest) by {
        forall i | 0 <= i < |rest| ensures rest[i] in step.1.data { assert rest[i] == fs[i + 1]; }
      }
      assert forall i :: 0 <= i < |rest| ==> rest[i] != g by {
        forall i | 0 <= i < |rest| ensures rest[i] != g { assert rest[i] == fs[i + 1]; }
      }
      ModelPassUntouched(step.0, step.1, rest, g);
    }
  }

  /** After updateModel every field holds what its widget holds when the
      field has a form widget and no custom model function, and is unchanged
      otherwise. */
  lemma {:induction false} ModelPassReadsWidgets(v: FormView, m: Model, fs: seq<Field>)
    requires FieldsKnown(m, fs)
    requires forall i, j :: 0 <= i < j < |fs| ==> fs[i] != fs[j]
    ensures var r := ModelPass(v, m, fs);
            forall i :: 0 <= i < |fs| ==>
              if CustomModelFunction(v.fields, fs[i]).None? && FormWidgetAt(v.tmpl, fs[i])
              then r.1.data[fs[i]].value == WidgetValue(v.tmpl.ResolveWidget(fs[i]).value)
              else r.1.data[fs[i]] == m.data[fs[i]]
    decreases |fs|
  {
    if fs != [] {
      var step := UpdateModelField(v, m, fs[0]);
      var rest := fs[1..];
      assert FieldsKnown(step.1, rest) by {
        forall i | 0 <= i < |rest| ensures rest[i] in step.1.data { assert rest[i] == fs[i + 1]; }
      }
      assert forall i, j :: 0 <= i < j < |rest| ==> rest[i] != rest[j] by {
        forall i, j | 0 <= i < j < |rest| ensures rest[i] != rest[j] {
          assert rest[i] == fs[i + 1] && rest[j] == fs[j + 1];
        }
      }
      ModelPassReadsWidgets(step.0, step.1, rest);
      var r := ModelPass(v, m, fs);
      assert r == ModelPass(step.0, step.1, rest);
      forall i | 0 <= i < |fs|
        ensures if CustomModelFunction(v.fields, fs[i]).None? && FormWidgetAt(v.tmpl, fs[i])
                then r.1.data[fs[i]].value == WidgetValue(v.tmpl.ResolveWidget(fs[i]).value)
                else r.1.data[fs[i]] == m.data[fs[i]]
      {
        if i == 0 {
          assert forall k :: 0 <= k < |rest| ==> rest[k] != fs[0] by {
            forall k | 0 <= k < |rest| ensures rest[k] != fs[0] { assert rest[k] == fs[k + 1]; }
          }
          ModelPassUntouched(step.0, step.1, rest, fs[0]);
        } else {
          assert rest[i - 1] == fs[i];
          assert step.1.data[fs[i]] == m.data[fs[i]] by {
            assert fs[i] in step.1.data - {fs[0]};
          }
        }
      }
    }
  }

  /** updateModel stores every form widget's value into its field unless a
      custom model function takes over. */
  lemma UpdateModelReadsWidgets(v: FormView, m: Model)
    requires m.Valid()
    ensures FieldsKnown(m, m.fields)
    ensures var r := ModelPass(v, m, m.fields);
            forall i :: 0 <= i < |m.fields| ==>
              if CustomModelFunction(v.fields, m.fields[i]).None? && FormWidgetAt(v.tmpl, m.fields[i])
              then r.1.data[m.fields[i]].value == WidgetValue(v.tmpl.ResolveWidget(m.fields[i]).value)
              else r.1.data[m.fields[i]] == m.data[m.fields[i]]
  {
    ModelPassReadsWidgets(v, m, m.fields);
  }
}

=== FILE: template_form_view.dfy ===
/** The form view: a template whose variables named after model fields hold
    the fields' widgets, plus a registry of per-field custom transfer
    functions. `UpdateView` pushes a model into the template and
    `UpdateModel` pulls widget values back into the model. */
module TemplateFormView {
  import opened Wrappers
  import opened Widgets
  import opened Templates
  import opened FormModels

  /** A custom update function supplied by the form author. Its body is
      arbitrary code outside this engine, so running it is observable here
      only as an event; `tag` tells registered functions apart. */
  datatype Callback = Callback(tag: nat)

  /** FieldData: the non-owning widget reference (by id) and the optional
      custom update functions for each direction. */
  datatype FieldData = FieldData(
    formWidget: Option<nat>,
    updateView: Option<Callback>,
    updateModel: Option<Callback>)

  type Registry = map<Field, FieldData>

  /** What a pass does besides changing bindings and the model: running a
      custom function, or logging that no widget could be obtained. */
  datatype Event =
    | RanUpdateView(field: Field, fn: Callback)
    | RanUpdateModel(field: Field, fn: Callback)
    | CreateFormWidgetFailed(field: Field)

  /** createFormWidget as overridden by a concrete form: the widget it
      constructs for a field, if any. The base class constructs none. */
  type Factory = map<Field, Widget>

  const DefaultFactory: Factory := map[]

  /** The whole view state. `nextId` hands out identities to the widgets
      this engine constructs. */
  datatype FormView = FormView(tmpl: Template, fields: Registry, nextId: nat, log: seq<Event>)

  // ---------------------------------------------------------------------
  // Slot names

  function ConditionName(f: Field): string { "if:" + f }
  function InfoName(f: Field): string { f + "-info" }
  function LabelName(f: Field): string { f + "-label" }

  /** The template variables a field's view pass writes. */
  function SlotsOf(f: Field): set<string> { {f, InfoName(f), LabelName(f)} }

  lemma SlotNamesDistinct(f: Field)
    ensures f != InfoName(f) && f != LabelName(f) && InfoName(f) != LabelName(f)
  {
  }

  // ---------------------------------------------------------------------
  // Registry

  function WidgetId(w: Option<Widget>): Option<nat> {
    if w.Some? then Some(w.value.id) else None
  }

  /** setFormWidget(field, widget): a fresh FieldData for `f` with no custom
      functions, and the widget bound at `f` (a null widget clears `f`). */
  function SetFormWidget(v: FormView, f: Field, w: Option<Widget>): (r: FormView)
    ensures f in r.fields && r.fields[f].updateView.None? && r.fields[f].updateModel.None?
    ensures r.fields[f].formWidget == WidgetId(w)
    ensures r.fields - {f} == v.fields - {f}
    ensures r.tmpl.ResolveWidget(f) == w
    ensures r.tmpl.slots - {f} == v.tmpl.slots - {f} && r.tmpl.conditions == v.tmpl.conditions
    ensures r.nextId == v.nextId && r.log == v.log
  {
    SetFormWidgetWithFunctions(v, f, w, None, None)
  }

  /** setFormWidget(field, widget, updateViewValue, updateModelValue): all
      three members of `f`'s FieldData are overwritten, an empty
      std::function being `None`. */
  function SetFormWidgetWithFunctions(v: FormView, f: Field, w: Option<Widget>,
                                      toView: Option<Callback>, toModel: Option<Callback>): (r: FormView)
    ensures f in r.fields && r.fields[f] == FieldData(WidgetId(w), toView, toModel)
    ensures r.fields - {f} == v.fields - {f}
    ensures r.tmpl.ResolveWidget(f) == w
    ensures r.tmpl.slots - {f} == v.tmpl.slots - {f} && r.tmpl.conditions == v.tmpl.conditions
    ensures r.nextId == v.nextId && r.log == v.log
  {
    var t := if w.Some? then v.tmpl.BindWidget(f, w.value) else v.tmpl.BindEmpty(f);
    v.(tmpl := t, fields := v.fields[f := FieldData(WidgetId(w), toView, toModel)])
  }

  /** createFormWidget: the factory's widget for `f` with a new identity. */
  function CreateFormWidget(fac: Factory, f: Field, id: nat): (r: Option<Widget>)
    ensures r.Some? <==> f in fac
    ensures r.Some? ==> r.value.id == id && r.value.(id := fac[f].id) == fac[f]
    ensures fac == DefaultFactory ==> r.None?
  {
    if f in fac then Some(fac[f].(id := id)) else None
  }

  // ---------------------------------------------------------------------
  // Value transfer

  /** The bool-returning updateViewValue: the custom view function that
      runs for `f`, if the registry holds a non-empty one. */
  function CustomViewFunction(reg: Registry, f: Field): (r: Option<Callback>)
    ensures r.Some? <==> f in reg && reg[f].updateView.Some?
    ensures r.Some? ==> r == reg[f].updateView
  {
    if f in reg && reg[f].updateView.Some? then reg[f].updateView else None
  }

  /** The bool-returning updateModelValue, for the model direction. */
  function CustomModelFunction(reg: Registry, f: Field): (r: Option<Callback>)
    ensures r.Some? <==> f in reg && reg[f].updateModel.Some?
    ensures r.Some? ==> r == reg[f].updateModel
  {
    if f in reg && reg[f].updateModel.Some? then reg[f].updateModel else None
  }

  /** The checked state a toggle button shows for a value: an empty value or
      `false` unchecks it. The source reads the value with any_cast<bool>,
      so a text value is outside its domain. */
  function ToggleState(v: Value): (checked: bool)
    requires !v.TextValue?
    ensures checked <==> v == BoolValue(true)
  {
    if v.NoValue? || v.b == false then false else true
  }

  /** The value a form widget holds, as updateModelValue stores it. */
  function WidgetValue(w: Widget): Value {
    if w.kind.ToggleButton? then BoolValue(w.checked) else TextValue(w.text)
  }

  /** Whether a form widget displays a field's value. */
  predicate ShowsValue(w: Widget, d: FieldState) {
    if w.kind.ToggleButton? then (w.checked <==> d.value == BoolValue(true))
    else w.text == d.valueText
  }

  /** A text value can only be pushed into a toggle button by a custom function. */
  predicate CanPushValue(reg: Registry, f: Field, d: FieldState, w: Widget) {
    CustomViewFunction(reg, f).None? && w.kind.ToggleButton? ==> !d.value.TextValue?
  }

  /** updateViewValue for a form widget: a custom function wins outright;
      otherwise a toggle button gets the value's checked state and any other
      form widget gets the value text. */
  function UpdateFormViewValue(reg: Registry, f: Field, d: FieldState, w: Widget): (r: (Widget, seq<Event>))
    requires IsFormWidget(w) && CanPushValue(reg, f, d, w)
    ensures CustomViewFunction(reg, f).Some? ==>
              r.0 == w && r.1 == [RanUpdateView(f, CustomViewFunction(reg, f).value)]
    ensures CustomViewFunction(reg, f).None? ==> r.1 == [] && ShowsValue(r.0, d)
    ensures r.0.(checked := w.checked, text := w.text) == w
  {
    var custom := CustomViewFunction(reg, f);
    if custom.Some? then (w, [RanUpdateView(f, custom.value)])
    else if w.kind.ToggleButton? then (w.(checked := ToggleState(d.value)), [])
    else (w.(text := d.valueText), [])
  }

  /** updateViewValue for a widget that is not a form widget: only a custom
      function can change it. */
  function UpdateWidgetViewValue(reg: Registry, f: Field, w: Widget): (r: (Widget, seq<Event>))
    ensures r.0 == w
    ensures CustomViewFunction(reg, f).Some? <==> r.1 != []
    ensures CustomViewFunction(reg, f).Some? ==> r.1 == [RanUpdateView(f, CustomViewFunction(reg, f).value)]
  {
    var custom := CustomViewFunction(reg, f);
    if custom.Some? then (w, [RanUpdateView(f, custom.value)]) else (w, [])
  }

  /** updateModelValue for a form widget: a custom function wins outright;
      otherwise the model takes the toggle's checked state or the widget's
      value text. */
  function UpdateFormModelValue(reg: Registry, m: Model, f: Field, w: Widget): (r: (Model, seq<Event>))
    requires f in m.data && IsFormWidget(w)
    ensures CustomModelFunction(reg, f).Some? ==>
              r.0 == m && r.1 == [RanUpdateModel(f, CustomModelFunction(reg, f).value)]
    ensures CustomModelFunction(reg, f).None? ==> r.1 == [] && r.0 == m.SetValue(f, WidgetValue(w))
    ensures w.kind.ToggleButton? && CustomModelFunction(reg, f).None? ==>
              r.0.data[f].value.BoolValue? && r.0.data[f].value.b == w.checked
  {
    var custom := CustomModelFunction(reg, f);
    if custom.Some? then (m, [RanUpdateModel(f, custom.value)])
    else if w.kind.ToggleButton? then (m.SetValue(f, BoolValue(w.checked)), [])
    else (m.SetValue(f, TextValue(w.text)), [])
  }

  /** updateModelValue for a widget that is not a form widget, or for no
      widget at all: only a custom function can change the model. */
  function UpdateWidgetModelValue(reg: Registry, m: Model, f: Field): (r: (Model, seq<Event>))
    ensures r.0 == m
    ensures CustomModelFunction(reg, f).Some? <==> r.1 != []
    ensures CustomModelFunction(reg, f).Some? ==> r.1 == [RanUpdateModel(f, CustomModelFunction(reg, f).value)]
  {
    var custom := CustomModelFunction(reg, f);
    if custom.Some? then (m, [RanUpdateModel(f, custom.value)]) else (m, [])
  }

  // ---------------------------------------------------------------------
  // View pass for one field

  /** Installs the model's validator on a form widget when it is non-null
      and not already the widget's validator. */
  function InstallValidator(w: Widget, mv: Option<ValidatorId>): (r: Widget)
    ensures mv.Some? ==> r.validator == mv
    ensures mv.None? ==> r == w
    ensures r.(validator := w.validator) == w
  {
    if w.validator != mv && mv.Some? then w.(validator := mv) else w
  }

  function StyleFor(validated: bool): StyleFlags {
    if validated then AllStyles else NoStyles
  }

  /** Whether an info widget reports a field's validation: its text is the
      message and it carries the error class exactly when the field was
      validated and is not valid. */
  predicate ReportsValidation(info: Widget, validated: bool, result: ValidationResult) {
    && info.text == result.message
    && (ErrorClass in info.styleClasses <==> validated && result.state != Valid)
  }

  /** indicateValidation: returns the updated info widget and edit widget. */
  function IndicateValidation(validated: bool, info: Widget, edit: Widget,
                              result: ValidationResult): (r: (Widget, Widget))
    ensures ReportsValidation(r.0, validated, result)
    ensures r.0.styleClasses - {ErrorClass} == info.styleClasses - {ErrorClass}
    ensures r.0.(text := info.text, styleClasses := info.styleClasses) == info
    ensures r.1.styling == Styled(result, if validated then AllStyles else NoStyles)
    ensures r.1.(styling := edit.styling) == edit
  {
    var shown := info.(text := result.message);
    if validated then
      var classes := if result.state != Valid then shown.styleClasses + {ErrorClass}
                     else shown.styleClasses - {ErrorClass};
      (shown.(styleClasses := classes), edit.(styling := Styled(result, AllStyles)))
    else
      (shown.(styleClasses := shown.styleClasses - {ErrorClass}), edit.(styling := Styled(result, NoStyles)))
  }

  /** `name` holds a toggle button. */
  predicate ToggleAt(t: Template, name: string) {
    t.ResolveWidget(name).Some? && t.ResolveWidget(name).value.kind.ToggleButton?
  }

  /** The widget the view pass may use for `f`, the bound one or the
      factory's, is a toggle button. */
  predicate ToggleBoundOrCreated(t: Template, fac: Factory, f: Field) {
    ToggleAt(t, f) || (f in fac && fac[f].kind.ToggleButton?)
  }

  /** A visible field whose value is text and that has no custom view
      function does not get a toggle button, bound or created: only that
      combination makes the view pass read the value as a boolean. */
  predicate ToggleHoldsBoolean(t: Template, reg: Registry, m: Model, fac: Factory, f: Field)
    requires f in m.data
  {
    m.data[f].visible && m.data[f].value.TextValue? && CustomViewFunction(reg, f).None? ==>
      !ToggleBoundOrCreated(t, fac, f)
  }

  /** ToggleHoldsBoolean for every field of the model. */
  predicate TogglesHoldBooleans(t: Template, reg: Registry, m: Model, fac: Factory) {
    forall f :: f in m.data ==> ToggleHoldsBoolean(t, reg, m, fac, f)
  }

  /** What a visible field with a widget shows once it agrees with the
      model: the widget is enabled exactly when the field is writable, is
      styled by the field's validation, carries the model's validator and
      shows the value unless a custom function takes over; an info widget
      reports the validation and the label is bound. */
  predicate Presented(t: Template, reg: Registry, d: FieldState, f: Field)
  {
    match t.ResolveWidget(f)
    case None => false
    case Some(w) =>
      && w.disabled == d.readOnly
      && w.styling == Styled(d.result, StyleFor(d.validated))
      && (IsFormWidget(w) && d.validator.Some? ==> w.validator == d.validator)
      && (IsFormWidget(w) && CustomViewFunction(reg, f).None? ==> ShowsValue(w, d))
      && t.ResolveText(InfoName(f)).Some?
      && ReportsValidation(t.ResolveText(InfoName(f)).value, d.validated, d.result)
      && LabelName(f) in t.slots && t.slots[LabelName(f)] == StringBinding(d.labelText)
  }

  /** What the view shows for `f` once it agrees with the model. A hidden
      field has its condition off and its widget and info slots cleared. A
      visible field has its condition on and is either Presented or has no
      widget because the factory has none for it. */
  predicate FieldConsistent(t: Template, reg: Registry, m: Model, fac: Factory, f: Field)
    requires f in m.data
  {
    var d := m.data[f];
    if !d.visible then
      && t.ConditionIs(ConditionName(f), false)
      && f in t.slots && t.slots[f] == StringBinding([])
      && InfoName(f) in t.slots && t.slots[InfoName(f)] == StringBinding([])
    else
      && t.ConditionIs(ConditionName(f), true)
      && (if t.ResolveWidget(f).None? then f !in fac else Presented(t, reg, d, f))
  }

  /** Lines 146-153 of updateViewField: a form widget gets the model's
      validator and then the value through the form-widget updateViewValue;
      any other widget goes through the custom function only. */
  function PushValue(reg: Registry, f: Field, d: FieldState, w: Widget): (r: (Widget, seq<Event>))
    requires IsFormWidget(w) ==> CanPushValue(reg, f, d, w)
    ensures r.0.kind == w.kind
    ensures r.0.disabled == w.disabled
    ensures IsFormWidget(w) && d.validator.Some? ==> r.0.validator == d.validator
    ensures IsFormWidget(w) && CustomViewFunction(reg, f).None? ==> ShowsValue(r.0, d)
    ensures !IsFormWidget(w) ==> r.0 == w
    ensures CustomViewFunction(reg, f).None? ==> r.1 == []
    ensures CustomViewFunction(reg, f).Some? ==> r.1 == [RanUpdateView(f, CustomViewFunction(reg, f).value)]
  {
    if IsFormWidget(w) then UpdateFormViewValue(reg, f, d, InstallValidator(w, d.validator))
    else UpdateWidgetViewValue(reg, f, w)
  }

  /** The bindings a visible field ends with: its widget, its info widget and
      its label text. With widgets as values, binding a widget and then
      changing it is binding its final state. */
  function BindField(t: Template, f: Field, edit: Widget, info: Widget, labelText: string): (r: Template)
    requires info.kind.TextView?
    ensures r.ResolveWidget(f) == Some(edit)
    ensures r.ResolveText(InfoName(f)) == Some(info)
    ensures LabelName(f) in r.slots && r.slots[LabelName(f)] == StringBinding(labelText)
    ensures r.slots - SlotsOf(f) == t.slots - SlotsOf(f)
    ensures r.conditions == t.conditions
  {
    SlotNamesDistinct(f);
    t.(slots := t.slots[LabelName(f) := StringBinding(labelText)]
                       [f := WidgetBinding(edit)]
                       [InfoName(f) := WidgetBinding(info)])
  }

  /** The bindings a hidden field ends with: widget and info slots cleared. */
  function ClearField(t: Template, f: Field): (r: Template)
    ensures f in r.slots && r.slots[f] == StringBinding([])
    ensures InfoName(f) in r.slots && r.slots[InfoName(f)] == StringBinding([])
    ensures r.slots - SlotsOf(f) == t.slots - SlotsOf(f)
    ensures LabelName(f) in t.slots <==> LabelName(f) in r.slots
    ensures LabelName(f) in t.slots ==> r.slots[LabelName(f)] == t.slots[LabelName(f)]
    ensures r.conditions == t.conditions
  {
    SlotNamesDistinct(f);
    t.BindEmpty(f).BindEmpty(InfoName(f))
  }

  /** Lines 146-167 of updateViewField, for a visible field whose widget
      `edit0` has been found or created: validator and value, the info widget
      (reused when `f-info` holds a WText, else created with identity `id`),
      the label, the validation indication and the disabled flag. Returns the
      template, the next free identity and the events. */
  function PresentField(t: Template, reg: Registry, d: FieldState, f: Field,
                        edit0: Widget, id: nat): (r: (Template, nat, seq<Event>))
    requires IsFormWidget(edit0) ==> CanPushValue(reg, f, d, edit0)
    ensures Presented(r.0, reg, d, f)
    ensures r.0.ResolveWidget(f).value.id == edit0.id
    ensures r.0.ResolveWidget(f).value.kind == edit0.kind
    ensures r.0.slots - SlotsOf(f) == t.slots - SlotsOf(f)
    ensures r.0.conditions == t.conditions
    ensures id <= r.1 <= id + 1
    ensures r.1 == id <==> t.ResolveText(InfoName(f)).Some?
    ensures CustomViewFunction(reg, f).None? ==> r.2 == []
    ensures CustomViewFunction(reg, f).Some? ==> r.2 == [RanUpdateView(f, CustomViewFunction(reg, f).value)]
  {
    var boundInfo := t.ResolveText(InfoName(f));
    var info0 := if boundInfo.Some? then boundInfo.value else NewWidget(id, TextView);
    var pushed := PushValue(reg, f, d, edit0);
    var indicated := IndicateValidation(d.validated, info0, pushed.0, d.result);
    var edit := indicated.1.(disabled := d.readOnly);
    (BindField(t, f, edit, indicated.0, d.labelText), if boundInfo.Some? then id else id + 1, pushed.1)
  }

  /** updateViewField. A hidden field: condition off, widget and info slots
      cleared. A visible field: condition on; the bound widget, or else one
      from the factory (when there is none the field is abandoned with a
      logged error); validator installed; value pushed; an info widget
      created if missing; label bound; validation indicated; disabled flag
      set from read-only. Only the field's own slots and condition change. */
  function UpdateViewField(v: FormView, m: Model, fac: Factory, f: Field): (r: FormView)
    requires f in m.data
    requires ToggleHoldsBoolean(v.tmpl, v.fields, m, fac, f)
    ensures r.fields == v.fields
    ensures r.tmpl.slots - SlotsOf(f) == v.tmpl.slots - SlotsOf(f)
    ensures r.tmpl.conditions - {ConditionName(f)} == v.tmpl.conditions - {ConditionName(f)}
    ensures FieldConsistent(r.tmpl, r.fields, m, fac, f)
    ensures m.data[f].visible && v.tmpl.ResolveWidget(f).Some? ==>
              && r.tmpl.ResolveWidget(f).Some?
              && r.tmpl.ResolveWidget(f).value.id == v.tmpl.ResolveWidget(f).value.id
              && r.tmpl.ResolveWidget(f).value.kind == v.tmpl.ResolveWidget(f).value.kind
    ensures v.nextId <= r.nextId
    ensures |v.log| <= |r.log| <= |v.log| + 1 && r.log[..|v.log|] == v.log
  {
    var d := m.data[f];
    if d.visible then
      var t1 := v.tmpl.SetCondition(ConditionName(f), true);
      var bound := t1.ResolveWidget(f);
      var created := CreateFormWidget(fac, f, v.nextId);
      if bound.None? && created.None? then
        v.(tmpl := t1, log := v.log + [CreateFormWidgetFailed(f)])
      else
        var edit0 := if bound.Some? then bound.value else created.value;
        var t2 := if bound.Some? then t1 else t1.BindWidget(f, edit0);
        var presented := PresentField(t2, v.fields, d, f, edit0, if bound.Some? then v.nextId else v.nextId + 1);
        FormView(presented.0, v.fields, presented.1, v.log + presented.2)
    else
      v.(tmpl := ClearField(v.tmpl.SetCondition(ConditionName(f), false), f))
  }

  lemma UpdateViewFieldKeepsBooleans(v: FormView, m: Model, fac: Factory, f: Field)
    requires f in m.data
    requires TogglesHoldBooleans(v.tmpl, v.fields, m, fac)
    ensures TogglesHoldBooleans(UpdateViewField(v, m, fac, f).tmpl, v.fields, m, fac)
  {
  }

  /** The view pass for one field binds no toggle button other than the
      factory's widget for that field. */
  lemma UpdateViewFieldTogglesFrom(v: FormView, m: Model, fac: Factory, f: Field)
    requires f in m.data
    requires ToggleHoldsBoolean(v.tmpl, v.fields, m, fac, f)
    ensures var r := UpdateViewField(v, m, fac, f);
            forall s :: ToggleAt(r.tmpl, s) ==> ToggleAt(v.tmpl, s) || (s == f && f in fac && fac[f].kind.ToggleButton?)
  {
  }

  // ---------------------------------------------------------------------
  // Passes over the model's fields

  predicate FieldsKnown(m: Model, fs: seq<Field>) {
    forall i :: 0 <= i < |fs| ==> fs[i] in m.data
  }

  /** The view pass over `fs`, in order: updateView is this fold over the
      model's field list. */
  function ViewPass(v: FormView, m: Model, fac: Factory, fs: seq<Field>): (r: FormView)
    requires FieldsKnown(m, fs)
    requires TogglesHoldBooleans(v.tmpl, v.fields, m, fac)
    ensures r.fields == v.fields
    ensures TogglesHoldBooleans(r.tmpl, r.fields, m, fac)
    ensures v.nextId <= r.nextId
    ensures |v.log| <= |r.log| && r.log[..|v.log|] == v.log
    decreases |fs|
  {
    if fs == [] then v
    else
      UpdateViewFieldKeepsBooleans(v, m, fac, fs[0]);
      ViewPass(UpdateViewField(v, m, fac, fs[0]), m, fac, fs[1..])
  }

  lemma {:induction false} ViewPassSnoc(v: FormView, m: Model, fac: Factory, fs: seq<Field>, f: Field)
    requires FieldsKnown(m, fs + [f])
    requires TogglesHoldBooleans(v.tmpl, v.fields, m, fac)
    ensures FieldsKnown(m, fs) && f in m.data
    ensures ViewPass(v, m, fac, fs + [f]) == UpdateViewField(ViewPass(v, m, fac, fs), m, fac, f)
    decreases |fs|
  {
    assert forall i :: 0 <= i < |fs| ==> fs[i] == (fs + [f])[i];
    assert (fs + [f])[|fs|] == f;
    if fs == [] {
      assert [f][1..] == [];
    } else {
      UpdateViewFieldKeepsBooleans(v, m, fac, fs[0]);
      assert (fs + [f])[1..] == fs[1..] + [f];
      ViewPassSnoc(UpdateViewField(v, m, fac, fs[0]), m, fac, fs[1..], f);
    }
  }

  /** updateView: the view pass over the model's fields, as a loop. */
  method UpdateView(v: FormView, m: Model, fac: Factory) returns (r: FormView)
    requires m.Valid()
    requires TogglesHoldBooleans(v.tmpl, v.fields, m, fac)
    ensures r == ViewPass(v, m, fac, m.fields)
  {
    r := v;
    var i := 0;
    while i < |m.fields|
      invariant 0 <= i <= |m.fields|
      invariant FieldsKnown(m, m.fields[..i])
      invariant r == ViewPass(v, m, fac, m.fields[..i])
    {
      assert m.fields[..i + 1] == m.fields[..i] + [m.fields[i]];
      ViewPassSnoc(v, m, fac, m.fields[..i], m.fields[i]);
      r := UpdateViewField(r, m, fac, m.fields[i]);
      i := i + 1;
    }
    assert m.fields[..i] == m.fields;
  }

  /** A form widget is bound at `f`. */
  predicate FormWidgetAt(t: Template, f: Field) {
    t.ResolveWidget(f).Some? && IsFormWidget(t.ResolveWidget(f).value)
  }

  /** updateModelField: the widget bound at `f` is found but never created;
      a form widget goes through the form-widget updateModelValue, anything
      else (no widget included) through the custom function only. The
      template and registry are not touched. */
  function UpdateModelField(v: FormView, m: Model, f: Field): (r: (FormView, Model))
    requires f in m.data
    ensures r.0.tmpl == v.tmpl && r.0.fields == v.fields && r.0.nextId == v.nextId
    ensures r.1.fields == m.fields && r.1.data.Keys == m.data.Keys
    ensures r.1.data - {f} == m.data - {f}
    ensures CustomModelFunction(v.fields, f).None? && FormWidgetAt(v.tmpl, f) ==>
              r.1.data[f].value == WidgetValue(v.tmpl.ResolveWidget(f).value)
              && r.1 == m.SetValue(f, r.1.data[f].value)
    ensures CustomModelFunction(v.fields, f).Some? || !FormWidgetAt(v.tmpl, f) ==> r.1 == m
    ensures CustomModelFunction(v.fields, f).None? ==> r.0.log == v.log
    ensures CustomModelFunction(v.fields, f).Some? ==>
              r.0.log == v.log + [RanUpdateModel(f, CustomModelFunction(v.fields, f).value)]
  {
    var edit := v.tmpl.ResolveWidget(f);
    var pulled := if edit.Some? && IsFormWidget(edit.value)
                  then UpdateFormModelValue(v.fields, m, f, edit.value)
                  else UpdateWidgetModelValue(v.fields, m, f);
    (v.(log := v.log + pulled.1), pulled.0)
  }

  /** The model pass over `fs`, in order: updateModel is this fold over the
      model's field list. It changes the model and the event log only. */
  function ModelPass(v: FormView, m: Model, fs: seq<Field>): (r: (FormView, Model))
    requires FieldsKnown(m, fs)
    ensures r.0.tmpl == v.tmpl && r.0.fields == v.fields && r.0.nextId == v.nextId
    ensures r.1.fields == m.fields && r.1.data.Keys == m.data.Keys
    decreases |fs|
  {
    if fs == [] then (v, m)
    else
      var step := UpdateModelField(v, m, fs[0]);
      ModelPass(step.0, step.1, fs[1..])
  }

  lemma {:induction false} ModelPassSnoc(v: FormView, m: Model, fs: seq<Field>, f: Field)
    requires FieldsKnown(m, fs + [f])
    ensures FieldsKnown(m, fs) && f in m.data
    ensures var p := ModelPass(v, m, fs);
            ModelPass(v, m, fs + [f]) == UpdateModelField(p.0, p.1, f)
    decreases |fs|
  {
    assert forall i :: 0 <= i < |fs| ==> fs[i] == (fs + [f])[i];
    assert (fs + [f])[|fs|] == f;
    if fs == [] {
      assert [f][1..] == [];
    } else {
      var step := UpdateModelField(v, m, fs[0]);
      assert (fs + [f])[1..] == fs[1..] + [f];
      ModelPassSnoc(step.0, step.1, fs[1..], f);
    }
  }

  /** updateModel: the model pass over the model's fields, as a loop. */
  method UpdateModel(v: FormView, m: Model) returns (r: FormView, m': Model)
    requires m.Valid()
    ensures (r, m') == ModelPass(v, m, m.fields)
  {
    r, m' := v, m;
    var i := 0;
    while i < |m.fields|
      invariant 0 <= i <= |m.fields|
      invariant FieldsKnown(m, m.fields[..i])
      invariant (r, m') == ModelPass(v, m, m.fields[..i])
    {
      assert m.fields[..i + 1] == m.fields[..i] + [m.fields[i]];
      ModelPassSnoc(v, m, m.fields[..i], m.fields[i]);
      var step := UpdateModelField(r, m', m.fields[i]);
      r, m' := step.0, step.1;
      i := i + 1;
    }
    assert m.fields[..i] == m.fields;
  }
}

=== FILE: templates.dfy ===
/** The template substrate, reduced to its bindings. A template variable is
    bound either to a widget or to a string (bindEmpty binds the empty
    string), never both; conditions are named booleans. */
module Templates {
  import opened Wrappers
  import opened Widgets

  datatype Binding = WidgetBinding(widget: Widget) | StringBinding(text: string)

  datatype Template = Template(slots: map<string, Binding>, conditions: map<string, bool>)
  {
    /** resolveWidget: the widget bound to `name`, if any. */
    function ResolveWidget(name: string): (r: Option<Widget>)
      ensures r.Some? <==> name in slots && slots[name].WidgetBinding?
      ensures r.Some? ==> slots[name] == WidgetBinding(r.value)
    {
      if name in slots && slots[name].WidgetBinding? then Some(slots[name].widget) else None
    }

    /** resolve<WText *>: the widget bound to `name` when it is a WText. */
    function ResolveText(name: string): (r: Option<Widget>)
      ensures r.Some? <==> ResolveWidget(name).Some? && ResolveWidget(name).value.kind.TextView?
      ensures r.Some? ==> r == ResolveWidget(name)
    {
      var w := ResolveWidget(name);
      if w.Some? && w.value.kind.TextView? then w else None
    }

    /** bindWidget: `name` now holds `w`; every other variable is unchanged.
        Writing back a modified widget into its own variable is the same
        operation, since widgets are values here. */
    function BindWidget(name: string, w: Widget): (r: Template)
      ensures r.ResolveWidget(name) == Some(w)
      ensures r.slots - {name} == slots - {name}
      ensures r.conditions == conditions
    {
      this.(slots := slots[name := WidgetBinding(w)])
    }

    /** bindString: `name` now holds the text `s`, dropping any widget there. */
    function BindString(name: string, s: string): (r: Template)
      ensures name in r.slots && r.slots[name] == StringBinding(s)
      ensures r.slots - {name} == slots - {name}
      ensures r.conditions == conditions
    {
      this.(slots := slots[name := StringBinding(s)])
    }

    /** bindEmpty: clears `name`; no widget is resolvable there afterwards. */
    function BindEmpty(name: string): (r: Template)
      ensures r.ResolveWidget(name).None?
      ensures name in r.slots && r.slots[name] == StringBinding([])
      ensures r.slots - {name} == slots - {name}
    {
      BindString(name, [])
    }

    /** setCondition. */
    function SetCondition(name: string, b: bool): (r: Template)
      ensures name in r.conditions && r.conditions[name] == b
      ensures r.conditions - {name} == conditions - {name}
      ensures r.slots == slots
    {
      this.(conditions := conditions[name := b])
    }

    predicate ConditionIs(name: string, b: bool) {
      name in conditions && conditions[name] == b
    }
  }
}

=== FILE: widgets.dfy ===
/** Widgets as plain values. Only the state the form view reads or writes is
    kept: the toggle state, the value text, the validator, the disabled flag,
    the style classes and the last validation style the theme applied. */
module Widgets {
  import opened Wrappers

  /** Identity of a validator object; a null validator is `None`. */
  type ValidatorId = nat

  datatype ValidationState = Invalid | InvalidEmpty | Valid

  /** WValidator::Result: a state plus a localized message. */
  datatype ValidationResult = ValidationResult(state: ValidationState, message: string)

  /** The style flags handed to the theme: ValidationAllStyles or None. */
  datatype StyleFlags = AllStyles | NoStyles

  /** What the theme was last asked to apply to a widget. */
  datatype Styling = Unstyled | Styled(result: ValidationResult, flags: StyleFlags)

  /** The capabilities the form view distinguishes by dynamic_cast:
      a toggle button (a form widget with a checked state), any other form
      widget (text valued), a WText, and any other widget. */
  datatype WidgetKind = ToggleButton | FormInput | TextView | Container

  datatype Widget = Widget(
    id: nat,
    kind: WidgetKind,
    checked: bool,
    text: string,
    validator: Option<ValidatorId>,
    disabled: bool,
    styleClasses: set<string>,
    styling: Styling)

  /** The style class marking an info message as an error. */
  const ErrorClass: string := "Wt-error"

  /** True when the widget is a WFormWidget. */
  predicate IsFormWidget(w: Widget) {
    w.kind.ToggleButton? || w.kind.FormInput?
  }

  /** A freshly constructed widget: unchecked, empty, enabled, undecorated. */
  function NewWidget(id: nat, kind: WidgetKind): (w: Widget)
    ensures w.id == id && w.kind == kind
    ensures !w.checked && w.text == [] && w.validator.None? && !w.disabled
    ensures w.styleClasses == {} && w.styling.Unstyled?
  {
    Widget(id, kind, false, [], None, false, {}, Unstyled)
  }
}

=== FILE: wrappers.dfy ===
/** The optional-value datatype used for nullable references in the model:
    a validator pointer, a resolved widget, a stored std::function. */
module Wrappers {

  datatype Option<+T> = None | Some(value: T)
}
